=== FILE: README.md ===
# Stories: a model of the step-sequencing engine

This project models the core of `stories/_base.py`. That file composes
procedures ("stories") from small steps. A story body names steps and
substories. The engine does its work in two phases.

1. **Flattening.** The story is flattened into a plan of
   `(owner, method, of)` entries. Each substory contributes three parts, in
   order:
   - an argument-check entry;
   - its own flattened body;
   - an `end_of_story` entry.

   All three are tagged with the substory's function object `of`, which
   acts as the region identity.
2. **Interpretation.** The plan is walked against a namespace that only
   grows. The walk also keeps:
   - a provenance log saying which argument or step set each name;
   - a skip region;
   - an indentation level;
   - a history of the run.

   Step outcomes are `Result`, `Success`, `Failure` and `Skip`:
   - `Failure` and `Result` stop the run.
   - `Success` adds names to the namespace. Re-setting a name is an error.
   - `Skip` abandons the rest of the substory the step belongs to.

The run is reported in one of two modes:
- **Direct mode** (`story(...)`) returns the value or raises `FailureError`.
- **Supervised mode** (`story.run(...)`) returns a `FailureSummary` or a
  `SuccessSummary`.

The model is functional:
- The declarations form an inductive tree (`Stories.Story`, `Stories.Member`).
- Flattening is a pure function to `seq<Plan.Entry>`.
- The interpreter is a pure function `Interpreter.Run`. It threads a
  `map<Key, Value>` namespace, a provenance `seq`, an `Option<StoryId>` skip
  state, the indentation and a structured history.
- `Interpreter.TellTheStory` and `Interpreter.RunTheStory` are the two
  Python functions as methods. Their loops are identical, so both share one
  loop, `Interpreter.Walk`, a refinement of `Run`. Its body,
  `Interpreter.Advance`, follows the source's order of updates: it appends
  a line naming the called method, then annotates it with the outcome, or
  removes it again for the two markers. It is proved to have the effect of
  one `Exec`. The two methods are proved to compute `Direct` and
  `Supervised`, and their contracts also state the outcome of a call in
  terms of argument validation and the run's end.
- Step bodies are a parameter `steps: (Owner, method name, namespace) -> Outcome`.

Modules:
- `Values`: Python values and truthiness, and Python dicts as insertion-ordered bindings.
- `Calls`: how a Python call ends: `Returns(value)` or `Raises(AssertionError | FailureError)`.
- `Outcomes`: step outcomes.
- `Stories`: declarations and the `argument` decorator.
- `Arguments`: `validate_arguments`.
- `Namespace`: `Context` (namespace and provenance log) and the merge done on `Success`.
- `Plan`: `Collector`, `collect_substory` and `end_of_story`, plus the well-nesting proofs.
- `Interpreter`: `tell_the_story` and `run_the_story`.
- `Summaries`: `FailureSummary` and `SuccessSummary`.
- `RunProperties`: lemmas about whole runs.
- `Describer`: `story_representation` and `Represent`.

Where descriptions of the engine and the code differ, the model follows the
code:
- Supervised mode is sometimes described as never raising. In the code,
  the engine's own `assert`s still raise `AssertionError` in supervised
  mode. These are a namespace conflict, missing substory arguments and a
  malformed call.
- A `Skip` at the top level of a story is handled by no special case. When
  no story nested in it, at any depth, has the story's own identity
  (`Stories.OwnIdUnique`), it bypasses the rest of the plan because no end
  marker carries the story's own identity. The run then ends as an
  exhausted plan does. This is proved from the plan's structure in
  `RunProperties.TopLevelSkipEndsRun`. Without that condition the skip can
  end early. A story can delegate, through an instance attribute, to the
  same story function on another object. The end marker of that inner
  story then clears the outer skip, and the rest of the outer story runs.
  `RunProperties.SkipLeaksThroughSameStory` exhibits such a run.

## Model

| member | source | states |
|---|---|---|
| Stories.DecoratorsDeclareInOrder | stories/_base.py:15-23 | stacked `argument` decorators declare their names top to bottom, and the body is untouched |
| Arguments.ValidateArguments | stories/_base.py:205-215 | a call raises exactly when it mixes positional and keyword arguments, when the positional count differs from the declared names, or when the keyword set differs from the declared set. Positional arguments bind to the declared names in order (with distinct names, exactly `zip`). Keyword arguments are taken as given |
| Arguments.Bind | stories/_base.py:210-212 | `dict(zip(arguments, args))` has exactly the declared names as keys; each name takes the value of its last position; with distinct names it is the zipped pairs in order |
| Values.FromPairs | stories/_base.py:212 | a dict built from pairs has exactly the keys of the pairs |
| Namespace.NewContext | stories/_base.py:220-222 | the initial context binds the validated arguments and logs each one as `Story argument`, in argument order, so each key is logged exactly once |
| Namespace.Read | stories/_base.py:224-225 | a name reads a value exactly when it is bound, and then it reads its binding; in a consistent context that is exactly when the log names it. An unbound name reads `None` where the source raises `KeyError` |
| Namespace.Merge | stories/_base.py:140-143 | a `Success` is rejected exactly when one of its keys is already bound, whatever the values. Otherwise the namespace gains exactly its keys, keeps every old binding and takes the new values. One `Set by Cls.method` entry per key is appended after the old log, in order. The log stays consistent |
| Plan.CompileWellNested | stories/_base.py:253-283 | the flattened plan of any story is a balanced bracket sequence. Every argument check opens its substory's region, the matching end marker closes that same region, and every step entry is tagged with the region open around it |
| Plan.SubstoryNested | stories/_base.py:360-372 | a collected substory, local or delegated, is balanced on its own: it leaves the stack of open regions as it found it |
| Plan.MemberNested | stories/_base.py:260-283 | each name a body references (step, local story or delegated story) flattens to a balanced piece |
| Plan.BodyNested | stories/_base.py:260-283 | a flattened body is balanced and its steps carry the enclosing region |
| Plan.ScanAppend | stories/_base.py:360-372 | reading two concatenated pieces of plan as brackets is reading one and then the other |
| Plan.BodyEnds | stories/_base.py:360-372 | the end markers of a flattened body close exactly the stories nested in it, at any depth |
| Plan.SubstoryEnds | stories/_base.py:372 | the end markers of a collected substory close the substory itself and the stories nested in it |
| Interpreter.Exec | stories/_base.py:98-143 | one loop iteration. While skipping, nothing is called, set or logged, and only the skipped story's own end marker clears the skip. An argument check stops the run exactly when the substory's arguments are not all bound, and changes no binding. Its history line is the substory heading when it goes ahead, and `validate_substory_arguments` when it stops the run. An end marker only lowers the indentation. A step call adds exactly one history line: the step's name at the current indentation, noted by its outcome. The outcome decides the rest. `Failure` stops with the method and reason. `Result` stops with the value. `Skip` skips the entry's region and lowers the indentation. `Success` stops on a conflict, and otherwise the new context is the `Merge` of the delta logged as `Set by Cls.method` |
| Interpreter.TellTheStory | stories/_base.py:89-143 | a malformed call raises the validation error before any step runs. Otherwise a used-up plan returns `None` and a `Result` returns its value. A failed step raises `FailureError` with exactly its reason, and an engine assertion raises `AssertionError` |
| Interpreter.RunTheStory | stories/_base.py:146-202 | a malformed call raises the validation error before any step runs. Otherwise a used-up plan or a `Result` gives a `SuccessSummary` of `None` or of the value. A failed step gives a `FailureSummary` of the context at that point, the step's name and its reason. Only an engine assertion raises |
| RunProperties.RunAppend | stories/_base.py:98-143 | the loop over two plans in sequence runs the first and, only if that one is used up, the second from the state it left |
| RunProperties.NothingRunsAfterStop | stories/_base.py:111-120 | once a run stops, whatever follows in the plan changes neither its result nor its final state |
| RunProperties.FailureShortCircuits | stories/_base.py:111-116 | a failing step stops the run with its own name and reason, whatever follows. The context is unchanged. The history gains one line marked `(failed)`, or `(failed: reason)` when the reason is truthy |
| RunProperties.ResultShortCircuits | stories/_base.py:118-120 | a step returning `Result(v)` stops the run with `v`, whatever follows, and its history line is marked returned |
| RunProperties.SkipBypassesToEnd | stories/_base.py:98-103 | while story `r` is skipped, entries are passed over up to and including the first end marker of `r`, with no call, namespace change or history line. End markers of other stories do not clear the skip, and what follows runs normally |
| RunProperties.SkipWithoutEnd | stories/_base.py:98-103 | a skip that no end marker closes passes over the rest of the plan, and the run ends as if the plan were used up, in the same state |
| RunProperties.SuffixEnds | stories/_base.py:98-103 | a suffix of a plan closes no region the plan itself does not close |
| RunProperties.SkipScopedToSubstory | stories/_base.py:122-127 | once substory `s` is skipped (when no story nested in `s` has its identity), the rest of `s`, nested substories included, is passed over, and the run resumes right after the end of `s` |
| RunProperties.StepSkipLeavesSubstory | stories/_base.py:122-127 | a step of substory `s` returning `Skip` is logged as skipped and lowers the indentation. The run then continues after the end of `s`, with the namespace as it was |
| RunProperties.TopLevelSkipEndsRun | stories/_base.py:122-127 | when no story nested in it has its identity, with the story itself skipped, the rest of its plan is passed over, and the run ends as exhausted: direct mode returns `None` and supervised mode `SuccessSummary(None)` |
| RunProperties.TopLevelStepSkipEndsRun | stories/_base.py:146-202 | when no story nested in it has its identity, a top-level step returning `Skip` ends the run as an exhausted plan does: direct mode returns `None` and supervised mode `SuccessSummary(None)` |
| RunProperties.SkipLeaksThroughSameStory | stories/_base.py:98-103 | the skip region is the story function, not the object. A story on class `A` delegates, through an instance attribute, to the same story function on a `B` object. A top-level `Skip` in `A` is then cleared by the end marker of `B`'s copy, the following `A` step still runs, and direct mode returns that step's value instead of `None` |
| RunProperties.ExecGrowsNamespace | stories/_base.py:140-143 | no loop iteration removes or changes a binding, and the provenance log only grows |
| RunProperties.RunGrowsNamespace | stories/_base.py:140-143 | over a whole run, no binding is removed or changed. The provenance log only grows and keeps naming every key exactly once |
| RunProperties.ModesAgree | stories/_base.py:89-202 | direct mode returns `v` exactly when supervised mode returns `SuccessSummary(v)`. It raises `FailureError(r)` exactly when supervised mode returns a summary that failed because of `r`. Both raise the same `AssertionError` otherwise |
| Interpreter.Supervise | stories/_base.py:168-202 | supervised mode raises exactly when the run ended on one of the engine's assertions, and then raises what direct mode raises. Otherwise its summary is a failure exactly when a step failed; `failed_on(n)` holds exactly for that step's name, `failed_because(r)` exactly when direct mode raises `FailureError(r)`, the failure summary keeps the context at the failure, and a success summary's value is what direct mode returns |
| Summaries.SummaryQueries | stories/_base.py:319-350 | `is_success` and `is_failure` are complementary. `failed_on` and `failed_because` hold only on a failure summary, for its own method and reason. Only a success summary has a value |
| Describer.DescribeRegion | stories/_base.py:386-389 | a body is shown as the `<empty>` mark exactly when it names nothing |
| Describer.DescribeBody | stories/_base.py:401-430 | every name a body references yields at least one line, and the first is that name at the current depth |
| Describer.DescribeMember | stories/_base.py:401-430 | a referenced name starts with its own line. A delegated story is headed `attr (Cls.story)` |
| Describer.WithoutEmptyMarksAppend | stories/_base.py:388-389 | removing the `<empty>` marks commutes with concatenating outlines |
| Describer.OutlineMatchesPlan | stories/_base.py:383-430 | describing a story and flattening it give the same names at the same depths. The only difference is the `<empty>` marks of empty substories |
| Describer.BodyOutlineMatchesPlan | stories/_base.py:393-430 | for any body, the outline lines other than `<empty>` marks are the names its flattened plan lists, at their bracket depths |
| Describer.MemberOutlineMatchesPlan | stories/_base.py:401-430 | the same agreement holds for each referenced name |
| Describer.SubstoryOutlineMatchesPlan | stories/_base.py:401-427 | the same agreement holds for a substory heading and its body one level deeper |

## Left out

- Name resolution by reflection is not modelled. This covers `Collector.__getattr__`'s lookups, `is_story`, `Proxy.__getattr__`, `Context.__getattr__` falling back on attributes, and `Context.__dir__`. A story body is an explicit tree of resolved members, so an unresolvable name cannot be written. The `AttributeError`, or the failed `assert is_story`, that the source raises for one is therefore not modelled.
- The `story` descriptor and `StoryWrapper` binding (`__get__`) are not modelled. The owner object is an explicit parameter instead.
- The Python 2 `ObjectProxy` subclass trick is host-language plumbing and is not modelled.
- The `assert restype in (...)` check is not modelled. Step outcomes are a closed datatype, so it cannot fail.
- Step bodies are not modelled. They are an uninterpreted parameter, `Interpreter.Steps`: a pure function from the owner, the step name and the namespace to an outcome. A real step may raise exceptions of its own, which is not modelled. A real step also receives the live context and history list through its proxy (`make_proxy(self, ctx, history)` and `Proxy.__init__`, stories/_base.py:106, 291-292, 307-310). Through them it could write `self.ctx.ns[k] = v` (which bypasses the conflict check of line 140), `del self.ctx.ns[k]`, or append to `self.history`. It could also change its owner object, so that a later step with the same namespace behaves differently. The model assumes steps do none of this: they change the context only through the `Success` keywords they return, and the history only through the lines the engine writes. `RunProperties.ExecGrowsNamespace`, `RunProperties.RunGrowsNamespace` and the history clauses of `Interpreter.Exec` hold under that assumption only.
- Names that never reach `__getattr__` are not modelled. Python calls `__getattr__` only after ordinary attribute lookup fails. A body name that is a real attribute of the `Collector` instance (`obj`, `method_calls`, `of`, stories/_base.py:255-258), of the `Represent` instance (`wrapper`, `lines`, `level`, `touched`, lines 395-399), or a built-in attribute of `object` (such as `__class__` or `__init__`) is therefore never looked up as a step or story. In the source, `I.of()` or `I.method_calls()` raise `TypeError` while the story is flattened, before any step runs. `I.lines()` raises `TypeError` inside `repr`, and `I.wrapper()` runs the story from inside `repr` (through `StoryWrapper.__call__`, lines 79-80). The model does not restrict member names, so `Plan.Compile`, `Interpreter.Direct` and `Describer.Describe` treat these names as ordinary steps.
- `FailureError` (from `.exceptions`, not part of this model) is represented as the `FailureError(reason)` exception variant.
- `repr`-based text is not modelled: `namespace_representation`, `Context.__repr__` column alignment, the `repr` of values in history lines, and `Proxy.__repr__` joining the history. History lines are kept structured as indentation, text and note.
- The indentation of history lines is not proved to equal one plus the depth of open substories. Only the per-entry changes are stated, in `Interpreter.Exec`.
- A story that names itself recurses without bound in the source, and the inductive tree cannot express it. The skip lemmas additionally assume `Stories.OwnIdUnique` of the story whose skip they follow: no story nested in it, at any depth, has its identity. Stories nested deeper may repeat identities among themselves. The condition also excludes a declaration that terminates: a story that delegates, through an instance attribute, to the same story function on another object. For that one the skip can leak, as `RunProperties.SkipLeaksThroughSameStory` shows, and the skip lemmas say nothing.
- Describer.OutlineMatchesPlan: `Represent.__getattr__` and `Collector.__getattr__` look names up in different orders. `Collector` takes any attribute of the class first, and asks the instance only when the class has none. `Represent` skips a class attribute that is not a story and then tries the instance. A class with a method `x`, whose instance also holds a story in `x`, is flattened with `x` as a step but described with `x (Cls.story)` expanded. The model resolves every name once, to one `Member`, so the lemma assumes both lookups resolve every name to the same member.
- Values.Truthy: treats every `Object` as true. Python objects that are false, such as `[]`, `{}`, `0.0` or an object whose `__bool__` or `__len__` says so, are not modelled. For `Failure([])` the source writes ` (failed)` where `FailureNote` of a true-valued object gives ` (failed: reason)`.
- Rendering the outline as text is not modelled: the two-space indentation and the `"\n".join` of `story_representation`. The outline is kept as structured lines.
- Value equality is Dafny datatype equality on a small `Value` type. Python `__eq__` overrides are not modelled. Neither is the built-in cross-type equality of `bool` and `int` (`True == 1`, `False == 0`). For example, `failed_because(1)` on `Failure(True)` is true in Python, while `FailedBecause(Int(1))` on reason `Bool(true)` is false in the model.
- Namespace.Read: reading an unknown name from the context raises `KeyError` in the source (`Context.__getattr__`), and `Read` returns `None` instead. `Context`'s real attributes are also not modelled: `ns`, `lines` and the dunder names are found before `__getattr__` runs, so a binding with one of those names cannot be read through attribute access.
- A step has one name in the model. The source finds a step by its attribute name, but reports the function's `__name__`: in the history line, in `Set by Cls.method` and in `failed_method`. The two differ for an aliased method (`b = a` in the class body) or for a decorator without `functools.wraps`. In such a case `failed_on("b")` is false in the source but true in the model.
- Describing an unbound story (`repr(Cls.story)`) is not modelled. There the wrapper's `obj` is `None`, so `Represent.__getattr__` looks names up on `NoneType` and `None`. It then finds no story, and lists every name flat at level 1: no substory is expanded and no `(Cls.story)` suffix is added. `Describer.Describe` models a story bound to an object.

=== FILE: arguments.dfy ===
/** Binding the arguments of a story call to the names the story declares. */
module Arguments {
  import opened Values
  import opened Calls

  function Names(arguments: seq<Key>): set<Key> {
    set k | k in arguments
  }

  predicate NoDuplicates(arguments: seq<Key>) {
    forall i, j :: 0 <= i < j < |arguments| ==> arguments[i] != arguments[j]
  }

  /** `validate_arguments`: a call is either positional or by keyword, never
      both. Positional arguments must be as many as the declared names and
      bind in declaration order; keyword arguments must name exactly the
      declared names and are taken as given. */
  function ValidateArguments(arguments: seq<Key>, args: seq<Value>, kwargs: Dict): (r: Call<Dict>)
    ensures r.Raises? <==>
              || (|args| > 0 && |kwargs| > 0)
              || (|args| > 0 && |arguments| != |args|)
              || (|args| == 0 && Names(arguments) != KeySet(kwargs))
    ensures r.Raises? ==> r.exc.AssertionError?
    ensures |args| > 0 && |kwargs| > 0 ==> r == Raises(AssertionError(MixedArguments))
    ensures r.Returns? && |args| > 0 ==>
              && KeySet(r.value) == Names(arguments)
              && forall i :: 0 <= i < |args| && (forall j :: i < j < |args| ==> arguments[j] != arguments[i])
                             ==> ToMap(r.value)[arguments[i]] == args[i]
    ensures r.Returns? && |args| > 0 && NoDuplicates(arguments) ==>
              |r.value| == |args| && forall i :: 0 <= i < |args| ==> r.value[i] == (arguments[i], args[i])
    ensures r.Returns? && |args| == 0 ==> r.value == kwargs
  {
    if |args| > 0 && |kwargs| > 0 then Raises(AssertionError(MixedArguments))
    else if |args| > 0 then
      if |arguments| != |args| then Raises(AssertionError(WrongArgumentCount))
      else Returns(Bind(arguments, args))
    else if Names(arguments) != KeySet(kwargs) then Raises(AssertionError(WrongArgumentNames))
    else Returns(kwargs)
  }

  /** `{k: v for k, v in zip(arguments, args)}`. */
  function Bind(arguments: seq<Key>, args: seq<Value>): (d: Dict)
    requires |arguments| == |args|
    ensures KeySet(d) == Names(arguments)
    ensures forall i :: 0 <= i < |args| && (forall j :: i < j < |args| ==> arguments[j] != arguments[i])
                        ==> ToMap(d)[arguments[i]] == args[i]
    ensures NoDuplicates(arguments) ==> d == Zip(arguments, args)
  {
    var pairs := Zip(arguments, args);
    BindFacts(arguments, args);
    FromPairs(pairs)
  }

  lemma BindFacts(arguments: seq<Key>, args: seq<Value>)
    requires |arguments| == |args|
    ensures KeySet(Zip(arguments, args)) == Names(arguments)
    ensures forall i :: 0 <= i < |args| && (forall j :: i < j < |args| ==> arguments[j] != arguments[i])
                        ==> ToMap(FromPairs(Zip(arguments, args)))[arguments[i]] == args[i]
    ensures NoDuplicates(arguments) ==> FromPairs(Zip(arguments, args)) == Zip(arguments, args)
  {
    var pairs := Zip(arguments, args);
    assert KeySet(pairs) == Names(arguments) by {
      assert forall k :: k in Names(arguments) ==> exists i :: 0 <= i < |arguments| && pairs[i].0 == k;
    }
    forall i | 0 <= i < |args| && (forall j :: i < j < |args| ==> arguments[j] != arguments[i])
      ensures ToMap(FromPairs(pairs))[arguments[i]] == args[i]
    {
      FromPairsLastWins(pairs, i);
    }
    if NoDuplicates(arguments) {
      FromDistinctPairs(pairs);
    }
  }
}

=== FILE: calls.dfy ===
/** How a Python call ends: it returns a value or raises an exception. The
    engine raises only two exceptions: `AssertionError` from its own
    `assert` statements, and `FailureError` when a story fails in direct mode. */
module Calls {
  import opened Values

  datatype Option<T> = None | Some(value: T)

  /** Which of the engine's `assert` statements fired. */
  datatype Violation =
    | MixedArguments       // positional and keyword arguments together
    | WrongArgumentCount   // positional count differs from the declared names
    | WrongArgumentNames   // keyword names differ from the declared names
    | MissingArguments     // a substory is entered before its arguments are set
    | NamespaceConflict    // a `Success` tries to set a name already set
    | NoValue              // the value of a failure summary is read

  datatype Exception = AssertionError(violation: Violation) | FailureError(reason: Value)

  datatype Call<T> = Returns(value: T) | Raises(exc: Exception)
}

=== FILE: describer.dfy ===
/** `repr` of a story: a static outline of what it would run, read off the
    declarations without calling any step. */
module Describer {
  import opened Stories
  import opened Plan

  /** An outline line: a name at some depth, or the `<empty>` mark of a
      story whose body names nothing. */
  datatype OutlineLine = Named(level: int, text: string) | EmptyMark(level: int)

  /** `story_representation`: `Cls.story`, then the body one level deeper. */
  function Describe(owner: Owner, s: Story): seq<OutlineLine> {
    [Named(0, owner.cls + "." + s.name)] + DescribeRegion(s.body, 1)
  }

  /** A body, or `<empty>` if it names nothing. */
  function DescribeRegion(body: seq<Member>, level: int): (r: seq<OutlineLine>)
    ensures body == [] <==> r == [EmptyMark(level)]
    decreases body, 1
  {
    if body == [] then [EmptyMark(level)] else DescribeBody(body, level)
  }

  /** `Represent.__getattr__` for each name of a body, in order. */
  function DescribeBody(body: seq<Member>, level: int): (r: seq<OutlineLine>)
    ensures |r| >= |body|
    ensures body != [] ==> r[0] == Named(level, if body[0].Step? then body[0].step else DisplayName(body[0]))
    decreases body, 0
  {
    if body == [] then [] else DescribeMember(body[0], level) + DescribeBody(body[1..], level)
  }

  /** A step is one line; a substory is its heading followed by its own
      body one level deeper. */
  function DescribeMember(m: Member, level: int): (r: seq<OutlineLine>)
    ensures |r| >= 1 && r[0] == Named(level, if m.Step? then m.step else DisplayName(m))
    decreases m
  {
    match m
    case Step(name) => [Named(level, name)]
    case Substory(_, s) => [Named(level, DisplayName(m))] + DescribeRegion(s.body, level + 1)
    case Delegated(_, _, s) => [Named(level, DisplayName(m))] + DescribeRegion(s.body, level + 1)
  }

  /** The outline without its `<empty>` marks. */
  function WithoutEmptyMarks(lines: seq<OutlineLine>): (r: seq<OutlineLine>)
    ensures forall i :: 0 <= i < |r| ==> r[i].Named?
  {
    if lines == [] then []
    else if lines[0].EmptyMark? then WithoutEmptyMarks(lines[1..])
    else [lines[0]] + WithoutEmptyMarks(lines[1..])
  }

  lemma {:induction false} WithoutEmptyMarksAppend(a: seq<OutlineLine>, b: seq<OutlineLine>)
    ensures WithoutEmptyMarks(a + b) == WithoutEmptyMarks(a) + WithoutEmptyMarks(b)
    decreases |a|
  {
    if a == [] {
      assert a + b == b;
    } else {
      assert (a + b)[0] == a[0] && (a + b)[1..] == a[1..] + b;
      WithoutEmptyMarksAppend(a[1..], b);
    }
  }

  /** The names a plan lists, read as an outline: each step and each
      substory heading, at the bracket depth where it stands. */
  function Headings(plan: seq<Entry>, level: int): seq<OutlineLine>
    decreases |plan|
  {
    if plan == [] then []
    else
      match plan[0].action
      case Invoke(step) => [Named(level, step)] + Headings(plan[1..], level)
      case CheckArguments(display, _) => [Named(level, display)] + Headings(plan[1..], level + 1)
      case EndOfStory => Headings(plan[1..], level - 1)
  }

  /** The outline names, at the same depths and in the same order, exactly
      what flattening plans: describing a story and flattening it agree. */
  lemma {:induction false} BodyOutlineMatchesPlan(owner: Owner, body: seq<Member>, region: StoryId,
                                                  level: int, rest: seq<Entry>)
    ensures Headings(CollectBody(owner, body, region) + rest, level)
            == WithoutEmptyMarks(DescribeBody(body, level)) + Headings(rest, level)
    decreases body
  {
    if body == [] {
      assert CollectBody(owner, body, region) + rest == rest;
    } else {
      var head := CollectMember(owner, body[0], region);
      var tail := CollectBody(owner, body[1..], region);
      assert CollectBody(owner, body, region) + rest == head + (tail + rest);
      MemberOutlineMatchesPlan(owner, body[0], region, level, tail + rest);
      BodyOutlineMatchesPlan(owner, body[1..], region, level, rest);
      WithoutEmptyMarksAppend(DescribeMember(body[0], level), DescribeBody(body[1..], level));
    }
  }

  lemma {:induction false} MemberOutlineMatchesPlan(owner: Owner, m: Member, region: StoryId,
                                                    level: int, rest: seq<Entry>)
    ensures Headings(CollectMember(owner, m, region) + rest, level)
            == WithoutEmptyMarks(DescribeMember(m, level)) + Headings(rest, level)
    decreases m
  {
    match m
    case Step(name) =>
      var plan := CollectMember(owner, m, region) + rest;
      assert plan[0] == Entry(owner, Invoke(name), region) && plan[1..] == rest;
      assert WithoutEmptyMarks(DescribeMember(m, level)) == [Named(level, name)];
    case Substory(_, s) =>
      SubstoryOutlineMatchesPlan(owner, s, DisplayName(m), level, rest);
    case Delegated(_, target, s) =>
      SubstoryOutlineMatchesPlan(target, s, DisplayName(m), level, rest);
  }

  lemma {:induction false} SubstoryOutlineMatchesPlan(owner: Owner, s: Story, display: string,
                                                      level: int, rest: seq<Entry>)
    ensures Headings(CollectSubstory(owner, s, display) + rest, level)
            == WithoutEmptyMarks([Named(level, display)] + DescribeRegion(s.body, level + 1)) + Headings(rest, level)
    decreases s
  {
    var begin := Entry(owner, CheckArguments(display, s.arguments), s.id);
    var body := CollectBody(owner, s.body, s.id);
    var end := Entry(owner, EndOfStory, s.id);
    var plan := CollectSubstory(owner, s, display) + rest;
    assert plan[0] == begin && plan[1..] == body + ([end] + rest);
    BodyOutlineMatchesPlan(owner, s.body, s.id, level + 1, [end] + rest);
    assert ([end] + rest)[0] == end && ([end] + rest)[1..] == rest;
    WithoutEmptyMarksAppend([Named(level, display)], DescribeRegion(s.body, level + 1));
    if s.body == [] {
      assert WithoutEmptyMarks(DescribeRegion(s.body, level + 1)) == [];
    }
  }

  /** Flattening a story and describing it announce the same names at the
      same depths; the description adds only the `<empty>` marks. */
  lemma OutlineMatchesPlan(owner: Owner, s: Story)
    ensures WithoutEmptyMarks(Describe(owner, s)) == [Named(0, owner.cls + "." + s.name)] + Headings(Compile(owner, s), 1)
  {
    BodyOutlineMatchesPlan(owner, s.body, s.id, 1, []);
    assert Compile(owner, s) + [] == Compile(owner, s);
    WithoutEmptyMarksAppend([Named(0, owner.cls + "." + s.name)], DescribeRegion(s.body, 1));
    if s.body == [] {
      assert WithoutEmptyMarks(DescribeRegion(s.body, 1)) == [];
    }
  }
}

=== FILE: interpreter.dfy ===
/** Running a story: the plan is walked entry by entry against the context,
    with a skip region, an indentation level and a history of the run.
    `tell_the_story` (direct mode) and `run_the_story` (supervised mode) walk
    the plan identically and differ only in how they report the end. */
module Interpreter {
  import opened Values
  import opened Calls
  import opened Outcomes
  import opened Stories
  import opened Arguments
  import opened Namespace
  import opened Plan
  import opened Summaries

  /** What a step body does, given the object it runs on, its own name and
      the namespace at the time of the call. A step is taken to act only
      through the outcome it returns: it does not write the context or the
      history, and it does not change its owner. */
  type Steps = (Owner, string, map<Key, Value>) -> Outcome

  /** How a history line ends: ` (failed)`, ` (failed: reason)`,
      ` (returned: value)`, ` (skipped)`, or with nothing. */
  datatype Note = Plain | Failed | FailedBecause(reason: Value) | Returned(value: Value) | Skipped

  /** A history line: indentation level, text and note. */
  datatype Line = Line(indent: int, text: string, note: Note)

  /** The loop variables: the context, the story being skipped if any, the
      indentation level and the history. */
  datatype State = State(ctx: Context, skipped: Option<StoryId>, indent: int, history: seq<Line>)

  /** How a run ends: the plan is used up, a step returned `Result` or
      `Failure`, or one of the engine's assertions fired. */
  datatype Finish = Exhausted | Return(value: Value) | Fail(step: string, reason: Value) | Abort(violation: Violation)

  /** The effect of one entry: carry on with a new state, or stop. */
  datatype Tick = Next(st: State) | Halt(finish: Finish, st: State)

  datatype Final = Final(finish: Finish, st: State)

  /** The note a failure leaves: its reason, when the reason is truthy. */
  function FailureNote(reason: Value): Note {
    if Truthy(reason) then FailedBecause(reason) else Failed
  }

  /** How the history line of a step ends, by the step's outcome. */
  function OutcomeNote(out: Outcome): Note {
    match out
    case Failure(reason) => FailureNote(reason)
    case Result(value) => Returned(value)
    case Skip => Skipped
    case Success(_) => Plain
  }

  /** The history line a step call adds. */
  function StepLine(st: State, step: string, note: Note): Line {
    Line(st.indent, step, note)
  }

  /** One iteration of the loop of `tell_the_story` / `run_the_story`. */
  function Exec(e: Entry, st: State, steps: Steps): (r: Tick)
    // While a story is skipped nothing is called, set or logged; only its
    // own end marker ends the skip.
    ensures st.skipped.Some? ==>
              && r.Next?
              && r.st.ctx == st.ctx && r.st.indent == st.indent && r.st.history == st.history
              && (r.st.skipped.None? <==> e.action.EndOfStory? && e.region == st.skipped.value)
              && (r.st.skipped.Some? ==> r.st.skipped == st.skipped)
    // Entering a substory needs its arguments set and changes no name.
    ensures st.skipped.None? && e.action.CheckArguments? ==>
              && r.st.ctx == st.ctx
              && (r.Halt? <==> !(Names(e.action.arguments) <= st.ctx.ns.Keys))
              && (r.Halt? ==> r.finish == Abort(MissingArguments))
              && (r.Next? ==> r.st.indent == st.indent + 1 && r.st.skipped.None?)
              // Its history line names the substory when it goes ahead, and
              // the check itself when the check stops the run.
              && (r.Next? ==> r.st.history == st.history + [Line(st.indent, e.action.display, Plain)])
              && (r.Halt? ==> r.st.history == st.history + [Line(st.indent, "validate_substory_arguments", Plain)])
    // Leaving a substory changes no name either.
    ensures st.skipped.None? && e.action.EndOfStory? ==>
              r == Next(st.(indent := st.indent - 1))
    // A step call is logged and its outcome decides the rest.
    ensures st.skipped.None? && e.action.Invoke? ==>
              var out := steps(e.owner, e.action.step, st.ctx.ns);
              && r.st.history == st.history + [StepLine(st, e.action.step, OutcomeNote(out))]
              && (r.Halt? && r.finish.Fail? <==> out.Failure?)
              && (r.Halt? && r.finish.Return? <==> out.Result?)
              && (r.Halt? && r.finish.Abort? <==> out.Success? && st.ctx.ns.Keys * KeySet(out.delta) != {})
              && (out.Failure? ==> r.finish == Fail(e.action.step, out.reason))
              && (out.Result? ==> r.finish == Return(out.value))
              && (out.Skip? ==> r.Next? && r.st.skipped == Some(e.region) && r.st.indent == st.indent - 1 && r.st.ctx == st.ctx)
              && (r.Next? && !out.Skip? ==> r.st.skipped.None? && r.st.indent == st.indent)
              && (!out.Success? ==> r.st.ctx == st.ctx)
              && (out.Success? && r.Next? ==> Merge(st.ctx, out.delta, SetBy(e.owner.cls, e.action.step)) == Some(r.st.ctx))
  {
    if st.skipped.Some? then
      if e.action.EndOfStory? && e.region == st.skipped.value then Next(st.(skipped := None)) else Next(st)
    else
      match e.action
      case CheckArguments(display, arguments) =>
        if Names(arguments) <= st.ctx.ns.Keys then
          Next(st.(indent := st.indent + 1, history := st.history + [Line(st.indent, display, Plain)]))
        else
          Halt(Abort(MissingArguments), st.(history := st.history + [Line(st.indent, "validate_substory_arguments", Plain)]))
      case EndOfStory =>
        Next(st.(indent := st.indent - 1))
      case Invoke(step) =>
        match steps(e.owner, step, st.ctx.ns)
        case Failure(reason) =>
          Halt(Fail(step, reason), st.(history := st.history + [StepLine(st, step, FailureNote(reason))]))
        case Result(value) =>
          Halt(Return(value), st.(history := st.history + [StepLine(st, step, Returned(value))]))
        case Skip =>
          Next(st.(skipped := Some(e.region), indent := st.indent - 1,
                   history := st.history + [StepLine(st, step, Skipped)]))
        case Success(delta) =>
          var logged := st.(history := st.history + [StepLine(st, step, Plain)]);
          match Merge(st.ctx, delta, SetBy(e.owner.cls, step))
          case None => Halt(Abort(NamespaceConflict), logged)
          case Some(ctx) => Next(logged.(ctx := ctx))
  }

  /** The loop over the whole plan. */
  function Run(plan: seq<Entry>, st: State, steps: Steps): Final
    decreases |plan|
  {
    if plan == [] then Final(Exhausted, st)
    else
      match Exec(plan[0], st, steps)
      case Next(st') => Run(plan[1..], st', steps)
      case Halt(finish, st') => Final(finish, st')
  }

  /** A run over a suffix of the plan takes one step at its first entry. */
  lemma RunStep(plan: seq<Entry>, i: nat, st: State, steps: Steps)
    requires i < |plan|
    ensures Run(plan[i..], st, steps) ==
              match Exec(plan[i], st, steps)
              case Next(st') => Run(plan[i + 1..], st', steps)
              case Halt(finish, st') => Final(finish, st')
  {
    assert plan[i..][0] == plan[i] && plan[i..][1..] == plan[i + 1..];
  }

  /** The state a run starts in: the validated arguments as context, no
      skip, indentation 1 and the `Proxy(Cls.story):` header. */
  function Start(owner: Owner, s: Story, args: Dict): State {
    State(NewContext(args), None, 1, [Line(0, "Proxy(" + owner.cls + "." + s.name + "):", Plain)])
  }

  /** Validates the arguments, flattens the story and runs the plan. */
  function Perform(owner: Owner, s: Story, args: seq<Value>, kwargs: Dict, steps: Steps): Call<Final> {
    match ValidateArguments(s.arguments, args, kwargs)
    case Raises(exc) => Raises(exc)
    case Returns(ns) => Returns(Run(Compile(owner, s), Start(owner, s, ns), steps))
  }

  /** How direct mode reports the end of a run. */
  function Tell(f: Final): Call<Value> {
    match f.finish
    case Exhausted => Returns(PyNone)
    case Return(value) => Returns(value)
    case Fail(_, reason) => Raises(FailureError(reason))
    case Abort(v) => Raises(AssertionError(v))
  }

  /** How supervised mode reports the end of a run. Only the engine's own
      assertions still raise, as in direct mode; a failed step becomes a
      failure summary naming that step and its reason, and otherwise the
      summary's value is what direct mode returns. */
  function Supervise(f: Final): (r: Call<Summary>)
    ensures r.Raises? <==> f.finish.Abort?
    ensures r.Raises? ==> Tell(f) == Raises(r.exc)
    ensures r.Returns? ==> (r.value.IsFailure() <==> f.finish.Fail?)
    ensures r.Returns? ==> forall name :: r.value.FailedOn(name) <==> f.finish.Fail? && f.finish.step == name
    ensures r.Returns? ==> forall why :: r.value.FailedBecause(why) <==> Tell(f) == Raises(FailureError(why))
    ensures r.Returns? && r.value.IsFailure() ==> r.value.ctx == f.st.ctx
    ensures r.Returns? && r.value.IsSuccess() ==> r.value.ReadValue() == Tell(f)
  {
    match f.finish
    case Exhausted => Returns(SuccessSummary(PyNone))
    case Return(value) => Returns(SuccessSummary(value))
    case Fail(step, reason) => Returns(FailureSummary(f.st.ctx, step, reason))
    case Abort(v) => Raises(AssertionError(v))
  }

  /** `story(...)`: the value of the story, or the exception it raises. */
  function Direct(owner: Owner, s: Story, args: seq<Value>, kwargs: Dict, steps: Steps): Call<Value> {
    match Perform(owner, s, args, kwargs, steps)
    case Raises(exc) => Raises(exc)
    case Returns(f) => Tell(f)
  }

  /** `story.run(...)`: a summary of the story, or the exception it raises. */
  function Supervised(owner: Owner, s: Story, args: seq<Value>, kwargs: Dict, steps: Steps): Call<Summary> {
    match Perform(owner, s, args, kwargs, steps)
    case Raises(exc) => Raises(exc)
    case Returns(f) => Supervise(f)
  }

  /** The name a plan entry's method has in Python: the step's own name,
      or that of the two marker functions. */
  function CalledName(a: Action): string {
    match a
    case Invoke(step) => step
    case CheckArguments(_, _) => "validate_substory_arguments"
    case EndOfStory => "end_of_story"
  }

  /** `history[-1] = history[-1] + note`. */
  function Annotate(history: seq<Line>, note: Note): seq<Line>
    requires history != []
  {
    history[..|history| - 1] + [history[|history| - 1].(note := note)]
  }

  /** The body of the loop of `tell_the_story` / `run_the_story` in the
      source's own order: a line naming the called method is appended first,
      then annotated with the outcome, or removed again for the two markers
      (the substory heading replaces it on entry). It has the effect of one
      `Exec`. */
  method Advance(e: Entry, st: State, steps: Steps) returns (r: Tick)
    ensures r == Exec(e, st, steps)
  {
    var ctx, skipped, indentLevel, history := st.ctx, st.skipped, st.indent, st.history;
    if skipped.Some? {
      if e.action.EndOfStory? && e.region == skipped.value {
        skipped := None;
      }
      return Next(State(ctx, skipped, indentLevel, history));
    }
    history := history + [Line(indentLevel, CalledName(e.action), Plain)];
    match e.action {
      case CheckArguments(display, arguments) =>
        if !(Names(arguments) <= ctx.ns.Keys) {
          return Halt(Abort(MissingArguments), State(ctx, skipped, indentLevel, history));
        }
        history := history[..|history| - 1];
        history := history + [Line(indentLevel, display, Plain)];
        indentLevel := indentLevel + 1;
      case EndOfStory =>
        history := history[..|history| - 1];
        indentLevel := indentLevel - 1;
      case Invoke(step) =>
        var result := steps(e.owner, step, ctx.ns);
        match result {
          case Failure(reason) =>
            history := Annotate(history, FailureNote(reason));
            return Halt(Fail(step, reason), State(ctx, skipped, indentLevel, history));
          case Result(value) =>
            history := Annotate(history, Returned(value));
            return Halt(Return(value), State(ctx, skipped, indentLevel, history));
          case Skip =>
            history := Annotate(history, Skipped);
            skipped := Some(e.region);
            indentLevel := indentLevel - 1;
          case Success(delta) =>
            if ctx.ns.Keys * KeySet(delta) != {} {
              return Halt(Abort(NamespaceConflict), State(ctx, skipped, indentLevel, history));
            }
            ctx := Merge(ctx, delta, SetBy(e.owner.cls, step)).value;
        }
    }
    return Next(State(ctx, skipped, indentLevel, history));
  }

  /** The loop shared by `tell_the_story` and `run_the_story`: entries are
      taken in order until one stops the run or the plan is used up. It
      computes `Run`. */
  method Walk(plan: seq<Entry>, start: State, steps: Steps) returns (f: Final)
    ensures f == Run(plan, start, steps)
  {
    var st := start;
    var i := 0;
    while i < |plan|
      invariant i <= |plan|
      invariant Run(plan, start, steps) == Run(plan[i..], st, steps)
    {
      RunStep(plan, i, st, steps);
      var t := Advance(plan[i], st, steps);
      if t.Halt? {
        return Final(t.finish, t.st);
      }
      st := t.st;
      i := i + 1;
    }
    assert plan[i..] == [];
    return Final(Exhausted, st);
  }

  /** `tell_the_story`: validate the arguments, run the plan, and return the
      value of the story or raise. It computes `Direct`. */
  method TellTheStory(owner: Owner, s: Story, args: seq<Value>, kwargs: Dict, steps: Steps) returns (r: Call<Value>)
    ensures r == Direct(owner, s, args, kwargs, steps)
    // A malformed call raises before any step runs.
    ensures var v := ValidateArguments(s.arguments, args, kwargs);
            v.Raises? ==> r == Raises(v.exc)
    // Otherwise the run of the flattened story decides: a used-up plan
    // returns `None`, a `Result` returns its value, a failed step raises
    // `FailureError` with exactly its reason, and an engine assertion raises.
    ensures var v := ValidateArguments(s.arguments, args, kwargs);
            v.Returns? ==>
              var f := Run(Compile(owner, s), Start(owner, s, v.value), steps);
              && (f.finish.Exhausted? ==> r == Returns(PyNone))
              && (f.finish.Return? ==> r == Returns(f.finish.value))
              && (forall x :: r == Raises(FailureError(x)) <==> f.finish.Fail? && f.finish.reason == x)
              && (forall x :: r == Raises(AssertionError(x)) <==> f.finish == Abort(x))
  {
    var validated := ValidateArguments(s.arguments, args, kwargs);
    if validated.Raises? {
      return Raises(validated.exc);
    }
    var start := State(NewContext(validated.value), None, 1, [Line(0, "Proxy(" + owner.cls + "." + s.name + "):", Plain)]);
    var f := Walk(Compile(owner, s), start, steps);
    match f.finish {
      case Exhausted => return Returns(PyNone);
      case Return(value) => return Returns(value);
      case Fail(_, reason) => return Raises(FailureError(reason));
      case Abort(v) => return Raises(AssertionError(v));
    }
  }

  /** `run_the_story`: the same run, reported through a summary. It computes
      `Supervised`. */
  method RunTheStory(owner: Owner, s: Story, args: seq<Value>, kwargs: Dict, steps: Steps) returns (r: Call<Summary>)
    ensures r == Supervised(owner, s, args, kwargs, steps)
    // A malformed call raises before any step runs.
    ensures var v := ValidateArguments(s.arguments, args, kwargs);
            v.Raises? ==> r == Raises(v.exc)
    // Otherwise a used-up plan or a `Result` gives a success summary of
    // `None` or of the value, a failed step gives a failure summary of the
    // context at that point, the step and its reason, and only an engine
    // assertion raises.
    ensures var v := ValidateArguments(s.arguments, args, kwargs);
            v.Returns? ==>
              var f := Run(Compile(owner, s), Start(owner, s, v.value), steps);
              && (f.finish.Exhausted? ==> r == Returns(SuccessSummary(PyNone)))
              && (f.finish.Return? ==> r == Returns(SuccessSummary(f.finish.value)))
              && (f.finish.Fail? ==> r == Returns(FailureSummary(f.st.ctx, f.finish.step, f.finish.reason)))
              && (r.Raises? <==> f.finish.Abort?)
              && (f.finish.Abort? ==> r == Raises(AssertionError(f.finish.violation)))
  {
    var validated := ValidateArguments(s.arguments, args, kwargs);
    if validated.Raises? {
      return Raises(validated.exc);
    }
    var start := State(NewContext(validated.value), None, 1, [Line(0, "Proxy(" + owner.cls + "." + s.name + "):", Plain)]);
    var f := Walk(Compile(owner, s), start, steps);
    match f.finish {
      case Exhausted => return Returns(SuccessSummary(PyNone));
      case Return(value) => return Returns(SuccessSummary(value));
      case Fail(step, reason) => return Returns(FailureSummary(f.st.ctx, step, reason));
      case Abort(v) => return Raises(AssertionError(v));
    }
  }
}

=== FILE: namespace.dfy ===
/** The story context: the namespace the steps share, and the provenance
    log saying which argument or step set each name. */
module Namespace {
  import opened Values
  import opened Calls

  /** Where a name came from: a story argument, or the `Success` of a step. */
  datatype Source = StoryArgument | SetBy(cls: string, step: string) {
    /** The comment shown beside the name. */
    function Text(): string {
      match this
      case StoryArgument => "Story argument"
      case SetBy(cls, step) => "Set by " + cls + "." + step
    }
  }

  datatype Provenance = Provenance(key: Key, source: Source)

  /** `ns` is the namespace; `lines` logs, in order, one entry per name set. */
  datatype Context = Context(ns: map<Key, Value>, lines: seq<Provenance>)

  /** The keys the log names, in order. */
  function Logged(lines: seq<Provenance>): (ks: seq<Key>)
    ensures |ks| == |lines| && forall i :: 0 <= i < |lines| ==> ks[i] == lines[i].key
  {
    seq(|lines|, i requires 0 <= i < |lines| => lines[i].key)
  }

  predicate Distinct(ks: seq<Key>) {
    forall i, j :: 0 <= i < j < |ks| ==> ks[i] != ks[j]
  }

  /** The log names every key of the namespace exactly once. */
  predicate Valid(c: Context) {
    Distinct(Logged(c.lines)) && (set k | k in Logged(c.lines)) == c.ns.Keys
  }

  /** The keys of a dict, in order. */
  function DictKeys(d: Dict): (ks: seq<Key>)
    ensures |ks| == |d| && forall i :: 0 <= i < |d| ==> ks[i] == d[i].0
    ensures Distinct(ks)
    ensures (set k | k in ks) == KeySet(d)
  {
    seq(|d|, i requires 0 <= i < |d| => d[i].0)
  }

  /** `Context(ns)`: the validated arguments, each logged as a story argument
      in argument order. */
  function NewContext(args: Dict): (c: Context)
    ensures Valid(c)
    ensures c.ns == ToMap(args)
    ensures |c.lines| == |args|
    ensures forall i :: 0 <= i < |args| ==> c.lines[i] == Provenance(args[i].0, StoryArgument)
  {
    var lines := seq(|args|, i requires 0 <= i < |args| => Provenance(args[i].0, StoryArgument));
    assert Logged(lines) == DictKeys(args);
    Context(ToMap(args), lines)
  }

  /** `ctx.name`: the value bound to `name`, if any. */
  function Read(c: Context, name: Key): (r: Option<Value>)
    ensures r.Some? <==> name in c.ns
    ensures r.Some? ==> r.value == c.ns[name]
    ensures Valid(c) ==> (r.Some? <==> name in Logged(c.lines))
  {
    if name in c.ns then Some(c.ns[name]) else None
  }

  /** Applies the `Success` of a step: rejected if it names any key already
      set, whatever its value; otherwise the namespace gains exactly the new
      keys, keeps every old binding, and one log entry per new key is
      appended in the order the step gave them. */
  function Merge(c: Context, delta: Dict, source: Source): (r: Option<Context>)
    ensures r.None? <==> c.ns.Keys * KeySet(delta) != {}
    ensures r.Some? ==>
              && r.value.ns.Keys == c.ns.Keys + KeySet(delta)
              && (forall k :: k in c.ns ==> r.value.ns[k] == c.ns[k])
              && (forall i :: 0 <= i < |delta| ==> r.value.ns[delta[i].0] == delta[i].1)
    ensures r.Some? ==>
              && |r.value.lines| == |c.lines| + |delta|
              && r.value.lines[..|c.lines|] == c.lines
              && forall i :: 0 <= i < |delta| ==> r.value.lines[|c.lines| + i] == Provenance(delta[i].0, source)
    ensures r.Some? && Valid(c) ==> Valid(r.value)
  {
    if c.ns.Keys * KeySet(delta) != {} then None
    else
      var r := Context(c.ns + ToMap(delta), c.lines + Logs(delta, source));
      MergedLines(c.lines, delta, source);
      MergedBindings(c.ns, delta);
      MergedValid(c, delta, source);
      Some(r)
  }

  /** One log entry per key of `delta`, in order. */
  function Logs(delta: Dict, source: Source): (added: seq<Provenance>)
    ensures |added| == |delta| && forall i :: 0 <= i < |delta| ==> added[i] == Provenance(delta[i].0, source)
    ensures Logged(added) == DictKeys(delta)
  {
    seq(|delta|, i requires 0 <= i < |delta| => Provenance(delta[i].0, source))
  }

  lemma MergedLines(lines: seq<Provenance>, delta: Dict, source: Source)
    ensures var r := lines + Logs(delta, source);
            && |r| == |lines| + |delta|
            && r[..|lines|] == lines
            && forall i :: 0 <= i < |delta| ==> r[|lines| + i] == Provenance(delta[i].0, source)
  {
    var r := lines + Logs(delta, source);
    assert r[..|lines|] == lines;
    assert forall i :: 0 <= i < |delta| ==> r[|lines| + i] == Logs(delta, source)[i];
  }

  lemma MergedBindings(ns: map<Key, Value>, delta: Dict)
    requires ns.Keys * KeySet(delta) == {}
    ensures (ns + ToMap(delta)).Keys == ns.Keys + KeySet(delta)
    ensures forall k :: k in ns ==> (ns + ToMap(delta))[k] == ns[k]
    ensures forall i :: 0 <= i < |delta| ==> (ns + ToMap(delta))[delta[i].0] == delta[i].1
  {
    var m := ns + ToMap(delta);
    forall k | k in ns
      ensures m[k] == ns[k]
    {
      assert k !in ns.Keys * KeySet(delta);
      assert k !in ToMap(delta);
    }
  }

  lemma MergedValid(c: Context, delta: Dict, source: Source)
    requires c.ns.Keys * KeySet(delta) == {}
    ensures Valid(c) ==> Valid(Context(c.ns + ToMap(delta), c.lines + Logs(delta, source)))
  {
    var lines := c.lines + Logs(delta, source);
    assert Logged(lines) == Logged(c.lines) + DictKeys(delta);
    if Valid(c) {
      forall i, j | 0 <= i < |c.lines| && 0 <= j < |delta|
        ensures Logged(c.lines)[i] != DictKeys(delta)[j]
      {
        var x := Logged(c.lines)[i];
        assert x in (set k | k in Logged(c.lines));
        assert delta[j].0 in KeySet(delta);
        assert x in c.ns.Keys;
        assert x !in c.ns.Keys * KeySet(delta);
      }
      DisjointConcat(Logged(c.lines), DictKeys(delta));
    }
  }

  /** Concatenating two duplicate-free key lists with no key in common gives
      a duplicate-free list. */
  lemma DisjointConcat(a: seq<Key>, b: seq<Key>)
    requires Distinct(a) && Distinct(b)
    requires forall i, j :: 0 <= i < |a| && 0 <= j < |b| ==> a[i] != b[j]
    ensures Distinct(a + b)
    ensures (set k | k in a + b) == (set k | k in a) + (set k | k in b)
  {
    forall i, j | 0 <= i < j < |a + b|
      ensures (a + b)[i] != (a + b)[j]
    {
      if j < |a| {
        assert (a + b)[i] == a[i] && (a + b)[j] == a[j];
      } else if i >= |a| {
        assert (a + b)[i] == b[i - |a|] && (a + b)[j] == b[j - |a|];
      } else {
        assert (a + b)[i] == a[i] && (a + b)[j] == b[j - |a|];
      }
    }
  }
}

=== FILE: outcomes.dfy ===
/** The closed set of values a step may return. */
module Outcomes {
  import opened Values

  /** `Result(value)` ends the story with a value, `Success(**kwargs)` adds
      names to the namespace, `Failure(reason)` ends the story as failed and
      `Skip()` abandons the rest of the substory the step belongs to. */
  datatype Outcome = Result(value: Value) | Success(delta: Dict) | Failure(reason: Value) | Skip
}

=== FILE: plan.dfy ===
/** Flattening a story into a plan: the list of entries the interpreter
    walks. Each substory becomes an argument check, its own flattened body
    and an end marker, all three tagged with the substory's identity. */
module Plan {
  import opened Values
  import opened Calls
  import opened Stories

  /** What an entry does: call a step, check a substory's arguments on entry
      (`validate_substory_arguments`), or close a substory (`end_of_story`). */
  datatype Action = Invoke(step: string) | CheckArguments(display: string, arguments: seq<Key>) | EndOfStory

  /** `(owner, method, of)`: the object the step runs on, the action, and the
      story the entry belongs to. */
  datatype Entry = Entry(owner: Owner, action: Action, region: StoryId)

  /** What `f(Collector(owner, plan, region))` appends for a story body. */
  function CollectBody(owner: Owner, body: seq<Member>, region: StoryId): seq<Entry>
    decreases body
  {
    if body == [] then [] else CollectMember(owner, body[0], region) + CollectBody(owner, body[1..], region)
  }

  /** `Collector.__getattr__`: a step of the owner's class is appended as is;
      a story of the class, or a story held by another object, is collected
      as a substory on its own owner. */
  function CollectMember(owner: Owner, m: Member, region: StoryId): seq<Entry>
    decreases m
  {
    match m
    case Step(name) => [Entry(owner, Invoke(name), region)]
    case Substory(_, s) => CollectSubstory(owner, s, DisplayName(m))
    case Delegated(_, target, s) => CollectSubstory(target, s, DisplayName(m))
  }

  /** `collect_substory`. */
  function CollectSubstory(owner: Owner, s: Story, display: string): seq<Entry>
    decreases s
  {
    [Entry(owner, CheckArguments(display, s.arguments), s.id)]
    + CollectBody(owner, s.body, s.id)
    + [Entry(owner, EndOfStory, s.id)]
  }

  /** The plan of a story called on `owner`. */
  function Compile(owner: Owner, s: Story): seq<Entry> {
    CollectBody(owner, s.body, s.id)
  }

  /** Reads a plan as a bracket sequence, keeping the stack of open regions:
      an argument check opens its region, an end marker must close the
      innermost open region, and a step must belong to the innermost one.
      None when the plan breaks one of these rules. */
  function Scan(plan: seq<Entry>, open: seq<StoryId>): (r: Option<seq<StoryId>>)
    requires |open| > 0
    ensures r.Some? ==> |r.value| > 0
  {
    if plan == [] then Some(open)
    else
      var e := plan[0];
      var innermost := open[|open| - 1];
      match e.action
      case Invoke(_) =>
        if e.region == innermost then Scan(plan[1..], open) else None
      case CheckArguments(_, _) =>
        Scan(plan[1..], open + [e.region])
      case EndOfStory =>
        if |open| > 1 && e.region == innermost then Scan(plan[1..], open[..|open| - 1]) else None
  }

  /** Plan `plan` of a story with identity `region` is well nested: every
      region it opens it closes, and every step belongs to the region open
      around it. */
  predicate WellNested(plan: seq<Entry>, region: StoryId) {
    Scan(plan, [region]) == Some([region])
  }

  lemma {:induction false} ScanAppend(a: seq<Entry>, b: seq<Entry>, open: seq<StoryId>)
    requires |open| > 0
    ensures Scan(a + b, open) == match Scan(a, open) case None => None case Some(o) => Scan(b, o)
    decreases |a|
  {
    if a != [] {
      assert (a + b)[0] == a[0] && (a + b)[1..] == a[1..] + b;
      var e := a[0];
      match e.action
      case Invoke(_) =>
        if e.region == open[|open| - 1] { ScanAppend(a[1..], b, open); }
      case CheckArguments(_, _) =>
        ScanAppend(a[1..], b, open + [e.region]);
      case EndOfStory =>
        if |open| > 1 && e.region == open[|open| - 1] { ScanAppend(a[1..], b, open[..|open| - 1]); }
    } else {
      assert a + b == b;
    }
  }

  /** A collected body leaves the stack of open regions as it found it,
      whatever encloses it. */
  lemma {:induction false} BodyNested(owner: Owner, body: seq<Member>, region: StoryId, open: seq<StoryId>)
    requires |open| > 0 && open[|open| - 1] == region
    ensures Scan(CollectBody(owner, body, region), open) == Some(open)
    decreases body
  {
    if body != [] {
      ScanAppend(CollectMember(owner, body[0], region), CollectBody(owner, body[1..], region), open);
      MemberNested(owner, body[0], region, open);
      BodyNested(owner, body[1..], region, open);
    }
  }

  lemma {:induction false} MemberNested(owner: Owner, m: Member, region: StoryId, open: seq<StoryId>)
    requires |open| > 0 && open[|open| - 1] == region
    ensures Scan(CollectMember(owner, m, region), open) == Some(open)
    decreases m
  {
    match m
    case Step(_) =>
    case Substory(_, s) => SubstoryNested(owner, s, DisplayName(m), open);
    case Delegated(_, target, s) => SubstoryNested(target, s, DisplayName(m), open);
  }

  lemma {:induction false} SubstoryNested(owner: Owner, s: Story, display: string, open: seq<StoryId>)
    requires |open| > 0
    ensures Scan(CollectSubstory(owner, s, display), open) == Some(open)
    decreases s
  {
    var begin := Entry(owner, CheckArguments(display, s.arguments), s.id);
    var body := CollectBody(owner, s.body, s.id);
    var end := Entry(owner, EndOfStory, s.id);
    var inner := open + [s.id];
    assert CollectSubstory(owner, s, display) == [begin] + (body + [end]);
    ScanAppend([begin], body + [end], open);
    ScanAppend(body, [end], inner);
    BodyNested(owner, s.body, s.id, inner);
    assert inner[..|inner| - 1] == open;
  }

  /** Flattening is well nested: every substory, local or delegated,
      contributes one argument check and one end marker for its own region,
      around entries of that region. */
  lemma CompileWellNested(owner: Owner, s: Story)
    ensures WellNested(Compile(owner, s), s.id)
  {
    BodyNested(owner, s.body, s.id, [s.id]);
  }

  /** The regions the end markers of a plan close. */
  function EndRegions(plan: seq<Entry>): set<StoryId> {
    set i | 0 <= i < |plan| && plan[i].action.EndOfStory? :: plan[i].region
  }

  lemma EndRegionsAppend(a: seq<Entry>, b: seq<Entry>)
    ensures EndRegions(a + b) == EndRegions(a) + EndRegions(b)
  {
    var ab := a + b;
    forall r | r in EndRegions(ab)
      ensures r in EndRegions(a) + EndRegions(b)
    {
      var i :| 0 <= i < |ab| && ab[i].action.EndOfStory? && ab[i].region == r;
      if i >= |a| { assert b[i - |a|] == ab[i]; }
    }
    forall r | r in EndRegions(a)
      ensures r in EndRegions(ab)
    {
      var i :| 0 <= i < |a| && a[i].action.EndOfStory? && a[i].region == r;
      assert ab[i] == a[i];
    }
    forall r | r in EndRegions(b)
      ensures r in EndRegions(ab)
    {
      var i :| 0 <= i < |b| && b[i].action.EndOfStory? && b[i].region == r;
      assert ab[|a| + i] == b[i];
    }
  }

  /** The end markers of a collected body close exactly the stories nested
      in it. */
  lemma {:induction false} BodyEnds(owner: Owner, body: seq<Member>, region: StoryId)
    ensures EndRegions(CollectBody(owner, body, region)) == NestedIds(body)
    decreases body
  {
    if body != [] {
      EndRegionsAppend(CollectMember(owner, body[0], region), CollectBody(owner, body[1..], region));
      MemberEnds(owner, body[0], region);
      BodyEnds(owner, body[1..], region);
    }
  }

  lemma {:induction false} MemberEnds(owner: Owner, m: Member, region: StoryId)
    ensures EndRegions(CollectMember(owner, m, region)) == MemberIds(m)
    decreases m
  {
    match m
    case Step(_) =>
      assert EndRegions(CollectMember(owner, m, region)) == {};
    case Substory(_, s) => SubstoryEnds(owner, s, DisplayName(m));
    case Delegated(_, target, s) => SubstoryEnds(target, s, DisplayName(m));
  }

  lemma {:induction false} SubstoryEnds(owner: Owner, s: Story, display: string)
    ensures EndRegions(CollectSubstory(owner, s, display)) == {s.id} + NestedIds(s.body)
    decreases s
  {
    var begin := Entry(owner, CheckArguments(display, s.arguments), s.id);
    var body := CollectBody(owner, s.body, s.id);
    var end := Entry(owner, EndOfStory, s.id);
    EndRegionsAppend([begin] + body, [end]);
    EndRegionsAppend([begin], body);
    BodyEnds(owner, s.body, s.id);
    assert EndRegions([begin]) == {};
    assert [end][0] == end;
    assert s.id in EndRegions([end]);
  }
}

=== FILE: run_properties.dfy ===
/** What every run of a story guarantees: a stop ends the run, a skip is
    confined to its own substory, the namespace only grows, and the two
    calling modes agree. */
module RunProperties {
  import opened Values
  import opened Calls
  import opened Outcomes
  import opened Stories
  import opened Namespace
  import opened Plan
  import opened Summaries
  import opened Interpreter
  import opened Arguments

  /** Running two plans one after the other is running the first and, if it
      used itself up, the second from where the first left off. */
  lemma {:induction false} RunAppend(a: seq<Entry>, b: seq<Entry>, st: State, steps: Steps)
    ensures Run(a + b, st, steps) ==
              var f := Run(a, st, steps);
              if f.finish.Exhausted? then Run(b, f.st, steps) else f
    decreases |a|
  {
    if a == [] {
      assert a + b == b;
    } else {
      assert (a + b)[0] == a[0] && (a + b)[1..] == a[1..] + b;
      match Exec(a[0], st, steps)
      case Next(st') => RunAppend(a[1..], b, st', steps);
      case Halt(_, _) =>
    }
  }

  /** Once a run stops, no later entry is invoked: whatever follows the
      stopping part of the plan changes nothing. */
  lemma NothingRunsAfterStop(a: seq<Entry>, rest: seq<Entry>, st: State, steps: Steps)
    requires !Run(a, st, steps).finish.Exhausted?
    ensures Run(a + rest, st, steps) == Run(a, st, steps)
  {
    RunAppend(a, rest, st, steps);
  }

  /** A step that fails stops the run there, naming itself and its reason,
      and adds a history line marked failed; no later entry runs. */
  lemma FailureShortCircuits(pre: seq<Entry>, e: Entry, rest: seq<Entry>, st: State, steps: Steps)
    requires Run(pre, st, steps).finish.Exhausted?
    requires Run(pre, st, steps).st.skipped.None? && e.action.Invoke?
    requires steps(e.owner, e.action.step, Run(pre, st, steps).st.ctx.ns).Failure?
    ensures var mid := Run(pre, st, steps).st;
            var reason := steps(e.owner, e.action.step, mid.ctx.ns).reason;
            Run(pre + [e] + rest, st, steps) ==
              Final(Fail(e.action.step, reason),
                    mid.(history := mid.history + [Line(mid.indent, e.action.step, FailureNote(reason))]))
  {
    RunAppend(pre + [e], rest, st, steps);
    RunAppend(pre, [e], st, steps);
  }

  /** A step that returns `Result(v)` stops the run there with `v`. */
  lemma ResultShortCircuits(pre: seq<Entry>, e: Entry, rest: seq<Entry>, st: State, steps: Steps)
    requires Run(pre, st, steps).finish.Exhausted?
    requires Run(pre, st, steps).st.skipped.None? && e.action.Invoke?
    requires steps(e.owner, e.action.step, Run(pre, st, steps).st.ctx.ns).Result?
    ensures var mid := Run(pre, st, steps).st;
            var value := steps(e.owner, e.action.step, mid.ctx.ns).value;
            Run(pre + [e] + rest, st, steps) ==
              Final(Return(value), mid.(history := mid.history + [Line(mid.indent, e.action.step, Returned(value))]))
  {
    RunAppend(pre + [e], rest, st, steps);
    RunAppend(pre, [e], st, steps);
  }

  /** While story `r` is skipped, every entry is passed over (no call, no
      namespace change, no history line) up to and including the first end
      marker of `r`; end markers of other stories do not end the skip, and
      the entries after it run normally. */
  lemma {:induction false} SkipBypassesToEnd(pre: seq<Entry>, end: Entry, post: seq<Entry>, st: State, steps: Steps)
    requires st.skipped.Some? && st.skipped.value !in EndRegions(pre)
    requires end.action.EndOfStory? && end.region == st.skipped.value
    ensures Run(pre + [end] + post, st, steps) == Run(post, st.(skipped := None), steps)
    decreases |pre|
  {
    var plan := pre + [end] + post;
    if pre == [] {
      assert plan[0] == end && plan[1..] == post;
    } else {
      assert plan[0] == pre[0] && plan[1..] == pre[1..] + [end] + post;
      assert !(pre[0].action.EndOfStory? && pre[0].region == st.skipped.value) by {
        if pre[0].action.EndOfStory? {
          assert pre[0].region in EndRegions(pre);
        }
      }
      SuffixEnds(pre, 1);
      SkipBypassesToEnd(pre[1..], end, post, st, steps);
    }
  }

  /** A skip that no end marker closes passes over the rest of the plan and
      ends the run as if the plan were used up. */
  lemma {:induction false} SkipWithoutEnd(plan: seq<Entry>, st: State, steps: Steps)
    requires st.skipped.Some? && st.skipped.value !in EndRegions(plan)
    ensures Run(plan, st, steps) == Final(Exhausted, st)
    decreases |plan|
  {
    if plan != [] {
      assert !(plan[0].action.EndOfStory? && plan[0].region == st.skipped.value) by {
        if plan[0].action.EndOfStory? {
          assert plan[0].region in EndRegions(plan);
        }
      }
      SuffixEnds(plan, 1);
      SkipWithoutEnd(plan[1..], st, steps);
    }
  }

  /** A suffix of a plan closes no region the plan does not close. */
  lemma SuffixEnds(plan: seq<Entry>, k: nat)
    requires k <= |plan|
    ensures EndRegions(plan[k..]) <= EndRegions(plan)
  {
    forall x | x in EndRegions(plan[k..])
      ensures x in EndRegions(plan)
    {
      var i :| 0 <= i < |plan[k..]| && plan[k..][i].action.EndOfStory? && plan[k..][i].region == x;
      assert plan[k + i] == plan[k..][i];
    }
  }

  /** Skip is scoped to its substory: once a step of substory `s` skips,
      the rest of `s`, nested substories included, is passed over, and the
      run resumes right after the end of `s`. */
  lemma SkipScopedToSubstory(owner: Owner, s: Story, display: string, k: nat, rest: seq<Entry>,
                             st: State, steps: Steps)
    requires OwnIdUnique(s)
    requires 0 < k < |CollectSubstory(owner, s, display)|
    requires st.skipped == Some(s.id)
    ensures Run(CollectSubstory(owner, s, display)[k..] + rest, st, steps) == Run(rest, st.(skipped := None), steps)
  {
    var body := CollectBody(owner, s.body, s.id);
    var end := Entry(owner, EndOfStory, s.id);
    SubstorySuffix(owner, s, display, k);
    BodyEnds(owner, s.body, s.id);
    SuffixEnds(body, k - 1);
    SkipBypassesToEnd(body[k - 1..], end, rest, st, steps);
  }

  /** Past its argument check, a collected substory is the rest of its body
      followed by its end marker. */
  lemma SubstorySuffix(owner: Owner, s: Story, display: string, k: nat)
    requires 0 < k < |CollectSubstory(owner, s, display)|
    ensures CollectSubstory(owner, s, display)[k..]
            == CollectBody(owner, s.body, s.id)[k - 1..] + [Entry(owner, EndOfStory, s.id)]
  {
    var body := CollectBody(owner, s.body, s.id);
    var begin := Entry(owner, CheckArguments(display, s.arguments), s.id);
    var end := Entry(owner, EndOfStory, s.id);
    var sub := CollectSubstory(owner, s, display);
    var tail := body + [end];
    assert sub == [begin] + tail;
    assert sub[k..] == tail[k - 1..];
    assert tail[k - 1..] == body[k - 1..] + [end];
  }

  /** A skip in the story itself (outside every substory) has no end marker
      to stop at: the rest of the plan is passed over and the run ends as
      if the plan were used up. */
  lemma TopLevelSkipEndsRun(owner: Owner, s: Story, k: nat, st: State, steps: Steps)
    requires OwnIdUnique(s)
    requires k <= |Compile(owner, s)|
    requires st.skipped == Some(s.id)
    ensures Run(Compile(owner, s)[k..], st, steps) == Final(Exhausted, st)
    ensures Tell(Run(Compile(owner, s)[k..], st, steps)) == Returns(PyNone)
    ensures Supervise(Run(Compile(owner, s)[k..], st, steps)) == Returns(SuccessSummary(PyNone))
  {
    BodyEnds(owner, s.body, s.id);
    SuffixEnds(Compile(owner, s), k);
    SkipWithoutEnd(Compile(owner, s)[k..], st, steps);
  }

  /** A step of substory `s` that returns `Skip` is logged as skipped and
      lowers the indentation; the rest of `s` is passed over and the run
      carries on after the end of `s`, with the namespace unchanged. */
  lemma StepSkipLeavesSubstory(owner: Owner, s: Story, display: string, k: nat, rest: seq<Entry>,
                               st: State, steps: Steps)
    requires OwnIdUnique(s)
    requires 0 < k < |CollectSubstory(owner, s, display)|
    requires var e := CollectSubstory(owner, s, display)[k];
             e.action.Invoke? && e.region == s.id && st.skipped.None?
             && steps(e.owner, e.action.step, st.ctx.ns).Skip?
    ensures var step := CollectSubstory(owner, s, display)[k].action.step;
            Run(CollectSubstory(owner, s, display)[k..] + rest, st, steps)
            == Run(rest, st.(indent := st.indent - 1, history := st.history + [Line(st.indent, step, Skipped)]), steps)
  {
    var sub := CollectSubstory(owner, s, display);
    var body := CollectBody(owner, s.body, s.id);
    var begin := Entry(owner, CheckArguments(display, s.arguments), s.id);
    var end := Entry(owner, EndOfStory, s.id);
    assert sub == [begin] + body + [end];
    assert sub[|sub| - 1] == end;
    var step := sub[k].action.step;
    var plan := sub[k..] + rest;
    assert plan[0] == sub[k] && plan[1..] == sub[k + 1..] + rest;
    var skipped := st.(skipped := Some(s.id), indent := st.indent - 1,
                       history := st.history + [Line(st.indent, step, Skipped)]);
    SkipStepEffect(sub[k], st, steps);
    assert Run(plan, st, steps) == Run(sub[k + 1..] + rest, skipped, steps);
    SkipScopedToSubstory(owner, s, display, k + 1, rest, skipped, steps);
  }

  /** A step returning `Skip` starts skipping its own region. */
  lemma SkipStepEffect(e: Entry, st: State, steps: Steps)
    requires e.action.Invoke? && st.skipped.None? && steps(e.owner, e.action.step, st.ctx.ns).Skip?
    ensures Exec(e, st, steps) == Next(st.(skipped := Some(e.region), indent := st.indent - 1,
                                          history := st.history + [Line(st.indent, e.action.step, Skipped)]))
  {
  }

  /** A step of the story itself that returns `Skip` ends the run as if the
      plan were used up: direct mode returns `None` and supervised mode a
      success summary of `None`. */
  lemma TopLevelStepSkipEndsRun(owner: Owner, s: Story, k: nat, st: State, steps: Steps)
    requires OwnIdUnique(s)
    requires k < |Compile(owner, s)|
    requires var e := Compile(owner, s)[k];
             e.action.Invoke? && e.region == s.id && st.skipped.None?
             && steps(e.owner, e.action.step, st.ctx.ns).Skip?
    ensures Run(Compile(owner, s)[k..], st, steps).finish == Exhausted
    ensures Tell(Run(Compile(owner, s)[k..], st, steps)) == Returns(PyNone)
    ensures Supervise(Run(Compile(owner, s)[k..], st, steps)) == Returns(SuccessSummary(PyNone))
  {
    var plan := Compile(owner, s);
    assert plan[k..][0] == plan[k] && plan[k..][1..] == plan[k + 1..];
    TopLevelSkipEndsRun(owner, s, k + 1, Exec(plan[k], st, steps).st, steps);
  }

  /** `a` is `b` with possibly more bindings: no binding of `b` is lost or
      changed. */
  predicate Extends(a: map<Key, Value>, b: map<Key, Value>) {
    b.Keys <= a.Keys && forall k :: k in b ==> a[k] == b[k]
  }

  /** One entry never removes or overwrites a name and only appends to the
      provenance log. */
  lemma ExecGrowsNamespace(e: Entry, st: State, steps: Steps)
    ensures Extends(Exec(e, st, steps).st.ctx.ns, st.ctx.ns)
    ensures st.ctx.lines <= Exec(e, st, steps).st.ctx.lines
    ensures Valid(st.ctx) ==> Valid(Exec(e, st, steps).st.ctx)
  {
  }

  /** A whole run never removes or overwrites a name, only appends to the
      provenance log, and keeps the log naming every key exactly once. */
  lemma {:induction false} RunGrowsNamespace(plan: seq<Entry>, st: State, steps: Steps)
    ensures Extends(Run(plan, st, steps).st.ctx.ns, st.ctx.ns)
    ensures st.ctx.lines <= Run(plan, st, steps).st.ctx.lines
    ensures Valid(st.ctx) ==> Valid(Run(plan, st, steps).st.ctx)
    decreases |plan|
  {
    if plan != [] {
      ExecGrowsNamespace(plan[0], st, steps);
      match Exec(plan[0], st, steps)
      case Next(st') => RunGrowsNamespace(plan[1..], st', steps);
      case Halt(_, _) =>
    }
  }

  /** The two modes run the same loop: direct mode returns `v` exactly when
      supervised mode returns a success summary of `v`, raises
      `FailureError(r)` exactly when supervised mode returns a failure
      summary with reason `r`, and otherwise both raise the same exception. */
  lemma ModesAgree(owner: Owner, s: Story, args: seq<Value>, kwargs: Dict, steps: Steps)
    ensures forall v :: Direct(owner, s, args, kwargs, steps) == Returns(v)
                        <==> Supervised(owner, s, args, kwargs, steps) == Returns(SuccessSummary(v))
    ensures forall r :: Direct(owner, s, args, kwargs, steps) == Raises(FailureError(r))
                        <==> (Supervised(owner, s, args, kwargs, steps).Returns?
                              && Supervised(owner, s, args, kwargs, steps).value.FailedBecause(r))
    ensures forall v :: Direct(owner, s, args, kwargs, steps) == Raises(AssertionError(v))
                        <==> Supervised(owner, s, args, kwargs, steps) == Raises(AssertionError(v))
  {
    match Perform(owner, s, args, kwargs, steps)
    case Raises(exc) =>
    case Returns(f) => ReportsAgree(f);
  }

  lemma ReportsAgree(f: Final)
    ensures forall v :: Tell(f) == Returns(v) <==> Supervise(f) == Returns(SuccessSummary(v))
    ensures forall r :: Tell(f) == Raises(FailureError(r))
                        <==> Supervise(f).Returns? && Supervise(f).value.FailedBecause(r)
    ensures forall v :: Tell(f) == Raises(AssertionError(v)) <==> Supervise(f) == Raises(AssertionError(v))
  {
  }

  /** Steps for `SkipLeaksThroughSameStory`: `stop` skips, anything else
      returns `Result(1)`. */
  function LeakSteps(o: Owner, step: string, ns: map<Key, Value>): Outcome {
    if step == "stop" then Skip else Result(Int(1))
  }

  /** Story `s` as seen from an object of class `B`, where `x` is a step. */
  function LeakInner(): Story {
    Story(7, "s", [], [Step("stop"), Step("x"), Step("give")])
  }

  /** The same story function `s` as seen from an object of class `A`,
      where `x` is an instance attribute holding `s` bound to the `B`
      object. */
  function LeakOuter(): Story {
    Story(7, "s", [], [Step("stop"), Delegated("x", Owner(2, "B"), LeakInner()), Step("give")])
  }

  function LeakPlan(): seq<Entry> {
    var b := Owner(2, "B");
    [Entry(Owner(1, "A"), Invoke("stop"), 7), Entry(b, CheckArguments("x (B.s)", []), 7),
     Entry(b, Invoke("stop"), 7), Entry(b, Invoke("x"), 7), Entry(b, Invoke("give"), 7),
     Entry(b, EndOfStory, 7), Entry(Owner(1, "A"), Invoke("give"), 7)]
  }

  lemma LeakCompiles()
    ensures Compile(Owner(1, "A"), LeakOuter()) == LeakPlan()
  {
    var a := Owner(1, "A");
    var b := Owner(2, "B");
    var inner := LeakInner();
    var outer := LeakOuter();
    var display := DisplayName(outer.body[1]);
    assert display == "x (B.s)";
    assert inner.body[1..] == [Step("x"), Step("give")] && inner.body[1..][1..] == [Step("give")];
    assert inner.body[1..][1..][1..] == [];
    assert outer.body[1..] == [outer.body[1], Step("give")] && outer.body[1..][1..] == [Step("give")];
    assert outer.body[1..][1..][1..] == [];
    var innerPlan := [Entry(b, Invoke("stop"), 7), Entry(b, Invoke("x"), 7), Entry(b, Invoke("give"), 7)];
    assert CollectBody(b, inner.body, 7) == innerPlan;
    var sub := CollectSubstory(b, inner, display);
    assert sub == [Entry(b, CheckArguments(display, []), 7)] + innerPlan + [Entry(b, EndOfStory, 7)];
    assert CollectBody(a, outer.body[1..][1..], 7) == [Entry(a, Invoke("give"), 7)];
    assert CollectMember(a, outer.body[1], 7) == sub;
    assert CollectBody(a, outer.body[1..], 7) == sub + [Entry(a, Invoke("give"), 7)];
    assert CollectMember(a, outer.body[0], 7) == [Entry(a, Invoke("stop"), 7)];
    assert Compile(a, outer) == [Entry(a, Invoke("stop"), 7)] + (sub + [Entry(a, Invoke("give"), 7)]);
  }

  /** The skip region is the story function, not the object it runs on. A
      story `s` of class `A` whose body is `stop`, `x`, `give`, where `x` is
      an instance attribute holding the same story function bound to an
      object of class `B`, flattens to `A.stop`, the `B.s` substory, and
      `A.give`. When `A.stop` skips at the top level, the end marker of `B.s`
      carries the same identity and clears the skip, so `A.give` still runs
      and the story returns its value instead of `None`. */
  lemma SkipLeaksThroughSameStory()
    ensures !OwnIdUnique(LeakOuter())
    ensures Direct(Owner(1, "A"), LeakOuter(), [], [], LeakSteps) == Returns(Int(1))
  {
    var outer := LeakOuter();
    assert 7 in MemberIds(outer.body[1]);
    LeakCompiles();
    var ns: Dict := [];
    assert ValidateArguments(outer.arguments, [], []) == Returns(ns);
    LeakRuns(Start(Owner(1, "A"), outer, ns));
  }

  lemma LeakRuns(s0: State)
    requires s0.skipped.None?
    ensures Run(LeakPlan(), s0, LeakSteps).finish == Return(Int(1))
  {
    var plan := LeakPlan();
    var s1 := s0.(skipped := Some(7), indent := s0.indent - 1, history := s0.history + [Line(s0.indent, "stop", Skipped)]);
    assert plan[0..] == plan;
    RunStep(plan, 0, s0, LeakSteps);
    SkipStepEffect(plan[0], s0, LeakSteps);
    LeakBypass(s1);
    LeakGives(s1.(skipped := None));
  }

  /** With the skip cleared, `A.give` runs and returns its value. */
  lemma LeakGives(s2: State)
    requires s2.skipped.None?
    ensures Run(LeakPlan()[6..], s2, LeakSteps).finish == Return(Int(1))
  {
    var plan := LeakPlan();
    RunStep(plan, 6, s2, LeakSteps);
  }

  /** While `s` is skipped, the `B.s` substory is passed over and its end
      marker clears the skip. */
  lemma LeakBypass(s1: State)
    requires s1.skipped == Some(7)
    ensures Run(LeakPlan()[1..], s1, LeakSteps) == Run(LeakPlan()[6..], s1.(skipped := None), LeakSteps)
  {
    var plan := LeakPlan();
    RunStep(plan, 1, s1, LeakSteps);
    RunStep(plan, 2, s1, LeakSteps);
    RunStep(plan, 3, s1, LeakSteps);
    RunStep(plan, 4, s1, LeakSteps);
    RunStep(plan, 5, s1, LeakSteps);
  }
}

=== FILE: stories.dfy ===
/** Story declarations. A story body names, in order, the steps and
    substories to run; here the names are already resolved into a tree. */
module Stories {
  import opened Values

  /** An object that owns steps and stories: its identity and class name. */
  datatype Owner = Owner(ref: nat, cls: string)

  /** The identity of a story function; regions of a plan are named by it. */
  type StoryId = nat

  /** A story function: its identity, `__name__`, the names its `argument`
      decorators declare, and the members its body names. */
  datatype Story = Story(id: StoryId, name: string, arguments: seq<Key>, body: seq<Member>)

  /** One name in a story body: a plain method of the owner's class, a story
      of the owner's class, or a story bound to another object that the
      owner holds as attribute `attr`. */
  datatype Member =
    | Step(step: string)
    | Substory(name: string, story: Story)
    | Delegated(attr: string, target: Owner, story: Story)

  /** The `argument(name)` decorator: puts `name` in front of the names
      already declared. */
  function Argument(name: Key, s: Story): (r: Story)
    ensures r.id == s.id && r.name == s.name && r.body == s.body
    ensures |r.arguments| == |s.arguments| + 1 && r.arguments[0] == name && r.arguments[1..] == s.arguments
  {
    s.(arguments := [name] + s.arguments)
  }

  /** Stacked decorators `@argument(names[0]) ... @argument(names[n-1])`:
      Python applies the lowest one first. */
  function Decorate(names: seq<Key>, s: Story): Story {
    if names == [] then s else Argument(names[0], Decorate(names[1..], s))
  }

  /** Stacked `argument` decorators declare their names top to bottom. */
  lemma {:induction false} DecoratorsDeclareInOrder(names: seq<Key>, s: Story)
    ensures Decorate(names, s).arguments == names + s.arguments
    ensures Decorate(names, s).body == s.body
  {
    if names != [] {
      DecoratorsDeclareInOrder(names[1..], s);
      assert [names[0]] + (names[1..] + s.arguments) == names + s.arguments;
    }
  }

  /** The name a substory is announced with: its attribute name, followed
      by the class and story name when it is delegated to another object. */
  function DisplayName(m: Member): string
    requires !m.Step?
  {
    match m
    case Substory(name, _) => name
    case Delegated(attr, target, story) => attr + " (" + target.cls + "." + story.name + ")"
  }

  /** The identities of every story nested, at any depth, in `body`. */
  function NestedIds(body: seq<Member>): set<StoryId>
    decreases body
  {
    if body == [] then {} else MemberIds(body[0]) + NestedIds(body[1..])
  }

  function MemberIds(m: Member): set<StoryId>
    decreases m
  {
    match m
    case Step(_) => {}
    case Substory(_, s) => {s.id} + NestedIds(s.body)
    case Delegated(_, _, s) => {s.id} + NestedIds(s.body)
  }

  /** No story nested in `s`, at any depth, has the identity of `s` itself,
      so the end marker of `s` is the only one that carries it. A story that
      names itself breaks this, and flattening it does not end in the
      source; so does a story that delegates, through an instance attribute,
      to the same story function on another object, which flattens and runs
      normally. Stories nested deeper may repeat identities among
      themselves. */
  predicate OwnIdUnique(s: Story) {
    s.id !in NestedIds(s.body)
  }
}

=== FILE: summaries.dfy ===
/** What a supervised run (`story.run(...)`) returns. */
module Summaries {
  import opened Values
  import opened Calls
  import opened Namespace

  /** `FailureSummary` keeps the context at the time of failure, the name of
      the failed method and its reason; `SuccessSummary` keeps the value. */
  datatype Summary = FailureSummary(ctx: Context, failedMethod: string, reason: Value) | SuccessSummary(value: Value) {

    predicate IsSuccess() {
      SuccessSummary?
    }

    predicate IsFailure() {
      FailureSummary?
    }

    /** `failed_on(name)`. */
    predicate FailedOn(name: string) {
      match this
      case FailureSummary(_, failedMethod, _) => name == failedMethod
      case SuccessSummary(_) => false
    }

    /** `failed_because(reason)`. */
    predicate FailedBecause(r: Value) {
      match this
      case FailureSummary(_, _, reason) => r == reason
      case SuccessSummary(_) => false
    }

    /** The `value` attribute; a failure summary has none and raises. */
    function ReadValue(): Call<Value> {
      match this
      case FailureSummary(_, _, _) => Raises(AssertionError(NoValue))
      case SuccessSummary(value) => Returns(value)
    }
  }

  /** Success and failure are complementary, and a summary answers
      `failed_on` and `failed_because` for its own method and reason only. */
  lemma SummaryQueries(s: Summary, name: string, r: Value)
    ensures s.IsSuccess() <==> !s.IsFailure()
    ensures s.FailedOn(name) <==> s.IsFailure() && name == s.failedMethod
    ensures s.FailedBecause(r) <==> s.IsFailure() && r == s.reason
    ensures s.ReadValue().Returns? <==> s.IsSuccess()
  {
  }
}

=== FILE: values.dfy ===
/** Python values as the story engine sees them, and Python dicts (ordered
    by insertion, one entry per key) as used for call arguments, `Success`
    deltas and the story namespace. */
module Values {

  /** A Python value. The engine only compares values and takes their
      truth value, so a few representative shapes suffice: `Object` stands
      for any other object whose truth value is true. */
  datatype Value = PyNone | Bool(b: bool) | Int(i: int) | Str(s: string) | Object(id: nat)

  /** Python truthiness: `None`, `False`, `0` and `""` are false. */
  predicate Truthy(v: Value) {
    match v
    case PyNone => false
    case Bool(b) => b
    case Int(i) => i != 0
    case Str(s) => s != ""
    case Object(_) => true
  }

  type Key = string
  type Binding = (Key, Value)

  predicate DistinctKeys(d: seq<Binding>) {
    forall i, j :: 0 <= i < j < |d| ==> d[i].0 != d[j].0
  }

  /** A Python dict: its bindings in insertion order, at most one per key. */
  type Dict = d: seq<Binding> | DistinctKeys(d) witness []

  function KeySet(d: seq<Binding>): (ks: set<Key>)
    ensures forall i :: 0 <= i < |d| ==> d[i].0 in ks
  {
    set b | b in d :: b.0
  }

  /** The index of the last binding of key `k` in a list that holds it. */
  function IndexOf(d: seq<Binding>, k: Key): (i: nat)
    requires k in KeySet(d)
    ensures i < |d| && d[i].0 == k
  {
    var init := d[..|d| - 1];
    KeySetSnoc(init, d[|d| - 1]);
    assert init + [d[|d| - 1]] == d;
    if d[|d| - 1].0 == k then |d| - 1 else IndexOf(init, k)
  }

  /** The mapping a dict denotes. */
  function ToMap(d: Dict): (m: map<Key, Value>)
    ensures m.Keys == KeySet(d)
    ensures forall i :: 0 <= i < |d| ==> m[d[i].0] == d[i].1
  {
    if d == [] then map[]
    else
      var init := d[..|d| - 1];
      var last := d[|d| - 1];
      SnocFacts(init, last, d);
      ToMap(init)[last.0 := last.1]
  }

  /** Facts about a dict `d` seen as its prefix `init` plus a last binding. */
  lemma SnocFacts(init: seq<Binding>, last: Binding, d: Dict)
    requires d == init + [last]
    ensures DistinctKeys(init)
    ensures KeySet(d) == KeySet(init) + {last.0}
    ensures forall i :: 0 <= i < |init| ==> init[i] == d[i] && init[i].0 != last.0
  {
    assert forall i :: 0 <= i < |init| ==> init[i] == d[i];
    assert forall i :: 0 <= i < |init| ==> d[i].0 != d[|d| - 1].0;
    KeySetSnoc(init, last);
  }

  lemma KeySetSnoc(init: seq<Binding>, last: Binding)
    ensures KeySet(init + [last]) == KeySet(init) + {last.0}
  {
    assert forall b :: b in init + [last] <==> b in init || b == last;
  }

  /** A mapping that agrees with every binding of `d` and has no other key
      is the mapping `d` denotes. */
  lemma ToMapUnique(d: Dict, m: map<Key, Value>)
    requires m.Keys == KeySet(d)
    requires forall i :: 0 <= i < |d| ==> m[d[i].0] == d[i].1
    ensures ToMap(d) == m
  {
    forall x | x in m
      ensures ToMap(d)[x] == m[x]
    {
      var i := IndexOf(d, x);
    }
  }

  /** `d[k] = v`: a present key keeps its position and takes the new value,
      a new key is appended. */
  function Assign(d: Dict, k: Key, v: Value): (r: Dict)
    ensures KeySet(r) == KeySet(d) + {k}
    ensures ToMap(r) == ToMap(d)[k := v]
    ensures k in KeySet(d) ==> |r| == |d| && forall i :: 0 <= i < |d| ==> r[i].0 == d[i].0
    ensures k !in KeySet(d) ==> r == d + [(k, v)]
  {
    if k in KeySet(d) then Replace(d, IndexOf(d, k), v) else Append(d, k, v)
  }

  /** Gives the binding at position `i` a new value. */
  function Replace(d: Dict, i: nat, v: Value): (r: Dict)
    requires i < |d|
    ensures |r| == |d| && forall j :: 0 <= j < |d| ==> r[j].0 == d[j].0
    ensures KeySet(r) == KeySet(d)
    ensures ToMap(r) == ToMap(d)[d[i].0 := v]
  {
    var r: seq<Binding> := d[i := (d[i].0, v)];
    ReplaceFacts(d, i, v, r);
    r
  }

  lemma ReplaceFacts(d: Dict, i: nat, v: Value, r: seq<Binding>)
    requires i < |d| && r == d[i := (d[i].0, v)]
    ensures |r| == |d| && forall j :: 0 <= j < |d| ==> r[j].0 == d[j].0
    ensures DistinctKeys(r) && KeySet(r) == KeySet(d)
    ensures ToMap(r) == ToMap(d)[d[i].0 := v]
  {
    assert forall j :: 0 <= j < |d| ==> r[j].0 == d[j].0;
    assert KeySet(r) == KeySet(d);
    var m := ToMap(d)[d[i].0 := v];
    forall j | 0 <= j < |r|
      ensures m[r[j].0] == r[j].1
    {
      if j != i {
        assert r[j] == d[j] && d[j].0 != d[i].0;
      }
    }
    ToMapUnique(r, m);
  }

  /** Appends a binding for a key the dict does not hold. */
  function Append(d: Dict, k: Key, v: Value): (r: Dict)
    requires k !in KeySet(d)
    ensures r == d + [(k, v)]
    ensures KeySet(r) == KeySet(d) + {k}
    ensures ToMap(r) == ToMap(d)[k := v]
  {
    var r := d + [(k, v)];
    assert forall j :: 0 <= j < |d| ==> r[j] == d[j];
    assert r[..|r| - 1] == d;
    r
  }

  /** `dict(pairs)`: a later pair overwrites the value of an earlier one
      with the same key, which keeps its first position. */
  function FromPairs(pairs: seq<Binding>): (r: Dict)
    ensures KeySet(r) == KeySet(pairs)
  {
    if pairs == [] then []
    else
      var init := pairs[..|pairs| - 1];
      var last := pairs[|pairs| - 1];
      assert pairs == init + [last];
      KeySetSnoc(init, last);
      Assign(FromPairs(init), last.0, last.1)
  }

  /** In `dict(pairs)` every key is bound to the value of its last pair. */
  lemma {:induction false} FromPairsLastWins(pairs: seq<Binding>, i: nat)
    requires i < |pairs|
    requires forall j :: i < j < |pairs| ==> pairs[j].0 != pairs[i].0
    ensures ToMap(FromPairs(pairs))[pairs[i].0] == pairs[i].1
  {
    var init := pairs[..|pairs| - 1];
    var last := pairs[|pairs| - 1];
    if i < |pairs| - 1 {
      assert init[i] == pairs[i];
      assert forall j :: i < j < |init| ==> init[j] == pairs[j];
      FromPairsLastWins(init, i);
    }
    assert FromPairs(pairs) == Assign(FromPairs(init), last.0, last.1);
  }

  /** Building a dict from pairs that already have distinct keys keeps them
      as they are, in order. */
  lemma {:induction false} FromDistinctPairs(pairs: seq<Binding>)
    requires DistinctKeys(pairs)
    ensures FromPairs(pairs) == pairs
  {
    if pairs != [] {
      var init := pairs[..|pairs| - 1];
      var last := pairs[|pairs| - 1];
      assert DistinctKeys(init);
      FromDistinctPairs(init);
      LastKeyFresh(pairs);
      assert FromPairs(pairs) == Assign(init, last.0, last.1);
    }
  }

  /** The last key of a dict-shaped list is not among the earlier ones. */
  lemma LastKeyFresh(pairs: seq<Binding>)
    requires DistinctKeys(pairs) && pairs != []
    ensures pairs[|pairs| - 1].0 !in KeySet(pairs[..|pairs| - 1])
    ensures pairs[..|pairs| - 1] + [pairs[|pairs| - 1]] == pairs
  {
    var init := pairs[..|pairs| - 1];
    assert forall i :: 0 <= i < |init| ==> init[i].0 != pairs[|pairs| - 1].0;
  }

  /** Pairs `(names[i], values[i])` as Python's `zip` makes them. */
  function Zip(names: seq<Key>, values: seq<Value>): (r: seq<Binding>)
    requires |names| == |values|
    ensures |r| == |names|
    ensures forall i :: 0 <= i < |r| ==> r[i] == (names[i], values[i])
  {
    seq(|names|, i requires 0 <= i < |names| => (names[i], values[i]))
  }
}
